=== FILE: README.md ===
# Pixel adventure core, modelled in Dafny

This project models the deterministic part of a small browser adventure game
in the style of Undertale. The player walks through two connected rooms,
talks to NPCs and flips switches. A separate dialog box types out messages one
character at a time. The model covers three parts.

- **The game-loop step** (`Movement`). On each tick the player moves 3 px for
  every held key group (up, down, left, right, in that order). The position is
  clamped to the box x ∈ [64, 560], y ∈ [64, 400]. Two door rules connect the
  rooms: leaving room 1 through the top lands the player at y = 380 in room 0,
  and leaving room 0 through the bottom lands the player at y = 80 in room 1.
  Both doors need 304 < x < 336. The facing is set by the last group handled,
  and the walk frame counts modulo 60. The step reads only the snapshot and
  the set of held keys. Like the source, it ignores the scene, so the player
  also moves behind the menu.
- **Interaction** (`Interaction`). The interaction key (`z` or `Z`) selects
  the first NPC in the current room closer than 40 px and opens the dialog.
  It also flips the first switch in the current room closer than 30 px. This
  section also covers dialog completion, the held-key set and the loop tick.
  The source tests `Math.sqrt(dx² + dy²) < r`. On integers this is the same
  as `dx² + dy² < r²`, which is how `Common.Near` states it.
- **The dialog box** (`Dialog`). Its state is the message index, the typing
  flag, the text on screen and the running typing timer. The timer's
  captured message and character counter are part of the state. "Next"
  either finishes the typing, advances to the next message, or reports
  completion and rewinds to the first message. Each timer tick shows one more
  character.

Each module gets its own file: `common.dfy`, `game.dfy` (records and
constants), `movement.dfy`, `interaction.dfy` and `dialog.dfy`.

## Model

| member | source | states |
|---|---|---|
| Movement.Step | src/components/GameEngine.tsx:342-406 | A tick writes only x, y, facing, room and sprite frame. With no movement key held the snapshot is unchanged. The box [64,560]×[64,400] is preserved. The facing equals the independent priority rule `Facing` (right over left over down over up). The frame becomes (frame+1) mod 60 when a key is held and stays in [0,60). |
| Movement.StepPosition | src/components/GameEngine.tsx:350-391 | x moves only when left or right is held: 3 px left clamped at 64, then 3 px right clamped at 560. y moves only when up or down is held (or a door fires): 3 px up clamped at 64, then 3 px down clamped at 400, when no door fires. |
| Movement.RoomTransitions | src/components/GameEngine.tsx:350-381 | The room changes exactly when one of the two door rules fires, and the two never fire together. The up door (room 1, up held, clamped y ≤ 64, 304 < x < 336) leads to room 0 at y 380, or 383 when down is also held. The down door (room 0, down held, clamped y ≥ 400, same band) leads to room 1 at y 80. Every other room stays as it is. |
| Movement.StepDependsOnGroupsOnly | src/components/GameEngine.tsx:350-391 | Two key sets that agree on the four key groups give the same step, so keys outside the groups never matter. |
| Movement.ArrowAndLetterAlike | src/components/GameEngine.tsx:350-391 | Holding an arrow key steps the same as holding its lower-case WASD letter. |
| Movement.RunStaysReachable | src/components/GameEngine.tsx:342-406 | Any sequence of ticks from an in-bounds snapshot with a valid frame stays in bounds with a valid frame. |
| Movement.RunKeepsRoomsZeroAndOne | src/components/GameEngine.tsx:355-380 | Starting in room 0 or 1, no sequence of ticks reaches another room. |
| Movement.InitialRunsStayReachable | src/components/GameEngine.tsx:40-51 | Every snapshot reachable from the initial state (160, 180, room 0, frame 0) is in bounds, has a valid frame and is in room 0 or 1. |
| Common.JsRem | src/components/GameEngine.tsx:396 | JavaScript's truncating `%`: the dividend is a whole multiple of the divisor plus the remainder, and the remainder lies in [0, divisor) for a non-negative dividend and in (-divisor, 0] for a negative one. Together these fix the truncating remainder for every sign, and for non-negative dividends it is the Euclidean remainder. |
| Common.JsRemIsOdd | src/components/GameEngine.tsx:396 | Negating the dividend negates the remainder, the symmetry that sets truncation apart from Dafny's Euclidean `%`. |
| Common.FirstIndex | src/components/GameEngine.tsx:287-302 | The filter-then-loop search returns the first index, in list order, whose element qualifies. It returns none exactly when no element qualifies. |
| Interaction.CheckNpcInteraction | src/components/GameEngine.tsx:286-303 | The dialog opens on the first NPC in the current room closer than 40 px, and no earlier NPC qualifies. With no NPC in reach the session is unchanged. Only the dialog flag and the selected NPC are ever written. |
| Interaction.CheckPuzzleInteraction | src/components/GameEngine.tsx:305-324 | Only `active` flags change. With no switch in reach the list is unchanged. Otherwise the first switch in reach is chosen, and every element carrying its id, and no other, has `active` negated. With distinct ids exactly that switch flips, and rocks and doors never change. |
| Interaction.InitialPuzzlesUnique | src/components/GameEngine.tsx:92-96 | The three initial puzzle elements have distinct ids 0, 1 and 2. |
| Interaction.HandlersKeepIdsUnique | src/components/GameEngine.tsx:317-321 | Key down, key up, a loop tick and dialog completion never change an id, so distinct ids stay distinct. |
| Interaction.ReplayKeepsIdsUnique | src/components/GameEngine.tsx:443-460 | Any sequence of key, tick and completion events keeps the puzzle ids distinct. |
| Interaction.ReachableSessionsHaveUniqueIds | src/components/GameEngine.tsx:92-96 | Every session reached from the initial one has distinct puzzle ids, so there the single-flip clauses of `CheckPuzzleInteraction` apply. |
| Interaction.ToggleTwiceRestores | src/components/GameEngine.tsx:305-324 | Pressing the interaction key twice at the same position restores the puzzle list. |
| Interaction.InitialSwitchFlips | src/components/GameEngine.tsx:92-96 | In the initial puzzle list, standing on the room-1 switch turns it on and leaves the rock and the door alone. |
| Interaction.DialogComplete | src/components/GameEngine.tsx:478-481 | Completion hides the dialog, clears the selected NPC and changes nothing else. |
| Interaction.KeyDown | src/components/GameEngine.tsx:444-452 | The key joins the held set. Any key other than the interaction key changes nothing else. The interaction key runs the NPC check and then the switch check on the same snapshot. |
| Interaction.KeyUp | src/components/GameEngine.tsx:454-460 | The key leaves the held set and nothing else changes. |
| Interaction.KeyTapRestores | src/components/GameEngine.tsx:443-460 | Pressing and releasing a key that was not held, other than the interaction key, restores the session. |
| Interaction.Tick | src/components/GameEngine.tsx:399-406 | A loop tick writes only the game snapshot and keeps it reachable. |
| Interaction.InteractKeyDoesNotMove | src/components/GameEngine.tsx:444-452 | Holding the interaction key leaves the next tick's movement unchanged. |
| Dialog.Restart | src/components/DialogSystem.tsx:20-39 | The typing effect keeps the index and stops the old timer. For a hidden dialog or no messages it changes nothing else. Otherwise it clears the text and starts a timer on the current message, which establishes the typing invariant. |
| Dialog.Tick | src/components/DialogSystem.tsx:27-36 | A tick shows the first charIndex+1 characters of the captured message and advances the counter. Once the counter has reached the length, the tick clears the typing flag and stops the timer. Without a timer it does nothing. It preserves the typing invariant, so the text on screen is always a prefix of the message. |
| Dialog.TypewriterShowsPrefix | src/components/DialogSystem.tsx:27-32 | After k ≤ length ticks, exactly the first k characters of the current message are shown and typing continues. |
| Dialog.TypewriterFinishes | src/components/DialogSystem.tsx:28-35 | Typing ends on tick length+1 with the whole message shown, and later ticks change nothing. |
| Dialog.NextAsWritten | src/components/DialogSystem.tsx:41-54 | As the source writes it: while typing, "next" shows the whole message, clears the flag, keeps the index and leaves the timer running. |
| Dialog.SkipIsUndoneAsWritten | src/components/DialogSystem.tsx:28-45 | With the timer left running, the tick after a skip shows a shorter text again: "abc" skipped after one character shows "ab". |
| Dialog.Next | src/components/DialogSystem.tsx:41-54 | While typing, "next" shows the whole current message, clears the flag, keeps the index and stops the timer. Otherwise it advances by exactly one while a later message exists, and at the last message it reports completion and rewinds to 0. It preserves 0 ≤ index < length and the typing invariant. |
| Dialog.SkipSticks | src/components/DialogSystem.tsx:42-45 | After "next" finishes the typing no timer runs, so the next tick, and any number of ticks, changes nothing. |
| Dialog.NextDiffersOnlyInTimer | src/components/DialogSystem.tsx:41-54 | The corrected "next" differs from the written one only in the timer, and not at all when the dialog is not typing. |
| Dialog.PressAsWritten | src/components/DialogSystem.tsx:20-54 | A press as the component behaves, followed by the typing effect when the index moved or the dialog is hidden afterwards (`visible` is the visibility after the press; the owner hides it on completion). While typing on a dialog that stays visible it shows the whole message, clears the flag, keeps the index and leaves the timer running. A hidden dialog is left with no timer. Otherwise it advances by one: on a visible dialog it restarts typing on the next message with empty text, and on a hidden one only the index moves and the timer stops. At the last message it completes and rewinds to message 0. If the dialog is hidden, only the index and the timer change. If it stays visible and the index was already 0, nothing changes. Otherwise typing restarts on message 0 with empty text. The index stays valid, and the typing invariant is kept for presses made while not typing. |
| Dialog.Press | src/components/DialogSystem.tsx:20-54 | The corrected press, built on the corrected `Next` that stops the timer, with the same typing effect when the index moves or the dialog is hidden afterwards. It behaves as the written press, except that a press while typing leaves no timer running. The advance and completion branches are pinned field by field: a hidden dialog changes only the index and stops the timer, and on a visible dialog typing restarts on the new message unless the index did not move. It keeps the index valid and, on a visible dialog, the typing invariant for every press. |
| Dialog.PressDiffersOnlyInTimer | src/components/DialogSystem.tsx:42-45 | The corrected and written presses are identical when not typing, and while typing differ only in the timer left running. |
| Dialog.IndicatorAnnouncesCompletion | src/components/DialogSystem.tsx:80 | The button shows "✓" exactly when the next press, made while not typing, completes the dialog, and "▼" otherwise. A press while typing never completes. |
| Dialog.PressesWalkToEnd | src/components/DialogSystem.tsx:46-48 | The advance branch iterated on its own, with no typing effect between steps (as if each message's typing had finished before the next press): k steps from message i reach message i+k without completing, as long as i+k is still a message. |
| Dialog.PressesCloseAfterLast | src/components/DialogSystem.tsx:49-53 | With the same iteration of the advance branch, the step after the last message completes the dialog and rewinds it to message 0. |

## Left out

- Canvas drawing (`drawPixelRect`, `drawPlayer`, `drawNPC`, `drawPuzzleElements`, `drawBackground`) has no effect on state. The walk bob `Math.sin(frame * 0.3)` is floating point.
- Timers are not modelled as time. The 16 ms loop interval, the 50 ms typing interval and effect cleanup are modelled as explicit calls (`Interaction.Tick`, `Dialog.Tick`, `Dialog.Restart`).
- `startGame` is left out. Its menu → intro → ruins scene changes are driven by a 3000 ms timeout, and no modelled operation reads the scene.
- React state batching and stale closures are left out. Each handler is modelled as a function of one snapshot. In particular, the switch check selects from the same list that it toggles. The source selects from the render-time list and toggles the latest one.
- The NPC table's literal contents (names, sprites, dialogue lines) are left out. The interaction functions take the NPC list as a parameter. The radii (40 px and 30 px) and the initial puzzle list are kept.
- The dialog markup inside the game engine, which only ever shows the first line of an NPC's dialogue, is JSX rendering and is left out.
- `src/components/MobileControls.tsx` and `src/pages/Index.tsx` are left out. Their touch buttons send synthetic key events, and the touch Z and X buttons open and close the dialog box. `src/pages/Index.tsx` owns the dialog box's visibility, its messages and its completion callback. The model takes the visibility and the messages as parameters (`Dialog.Restart`, `Dialog.Press`) and reports completion as a flag in `Dialog.Outcome`.
- Dialog.Restart: requires the index to point at a message whenever there are messages. With a stale index the source reads `undefined` and fails on `.length` at the first tick, and the model does not represent that failure. `Dialog.Next` and `Dialog.Press` preserve the requirement.
- Dialog.Press: the dialog's visibility after completion belongs to the owning component, so it is a parameter.
- Strings are sequences of Unicode scalar values, but JavaScript's `length` and `slice` count UTF-16 code units. A message with a character outside the Basic Multilingual Plane types out in one more tick in the source, and for one tick shows half a surrogate pair. The model does neither; the messages the page passes are all inside the Basic Multilingual Plane, where the two counts agree.

## Findings

| source | as written | input that shows it | evidently intended | confidence | as-written member | corrected member |
|---|---|---|---|---|---|---|
| src/components/DialogSystem.tsx:42-45 | "Next" while typing shows the whole message and clears the typing flag, but it does not stop the typing interval. The next tick overwrites the text with the next prefix of the message. | Message "abc", "next" pressed after the first tick: the screen shows "abc", then "ab" on the next tick, and the text grows back one character per tick. | Once skipped, the whole message stays on screen. | not executed; high | Dialog.SkipIsUndoneAsWritten | Dialog.SkipSticks |

=== FILE: common.dfy ===
/** Small helpers shared by the game model: an optional value, the JavaScript
    integer operations the game code relies on, the proximity test and a
    first-match search. */
module Common {

  datatype Option<+T> = None | Some(value: T)

  function Max(a: int, b: int): (r: int)
    ensures r >= a && r >= b
    ensures r == a || r == b
  {
    if a >= b then a else b
  }

  function Min(a: int, b: int): (r: int)
    ensures r <= a && r <= b
    ensures r == a || r == b
  {
    if a <= b then a else b
  }

  /** JavaScript's `%`: the remainder truncates toward zero, so it takes the
      sign of the dividend (Dafny's `%` is Euclidean). The range clauses and
      the quotient clause together fix `r` for every sign of `a`. */
  function JsRem(a: int, b: int): (r: int)
    requires b > 0
    ensures a >= 0 ==> 0 <= r < b && r == a % b
    ensures a < 0 ==> -b < r <= 0
    // the dividend is a whole multiple of the divisor plus the remainder
    ensures exists q :: a == q * b + r
  {
    if a >= 0 then
      assert a == (a / b) * b + a % b;
      a % b
    else
      var n := -a;
      assert n == (n / b) * b + n % b;
      assert a == (-(n / b)) * b + -(n % b);
      -(n % b)
  }

  /** Truncation is symmetric about zero: negating the dividend negates the
      remainder, which the Euclidean `%` does not do. */
  lemma JsRemIsOdd(a: int, b: int)
    requires b > 0
    ensures JsRem(-a, b) == -JsRem(a, b)
  {
  }

  /** `Math.sqrt(dx*dx + dy*dy) < radius` for integer coordinates and a
      non-negative radius, written without the square root. */
  predicate Near(px: int, py: int, x: int, y: int, radius: nat)
  {
    (px - x) * (px - x) + (py - y) * (py - y) < radius * radius
  }

  /** The index of the first element of `xs` that satisfies `p`, scanning in
      sequence order. */
  function FirstIndex<T>(xs: seq<T>, p: T -> bool): (r: Option<nat>)
    ensures r.Some? ==> r.value < |xs| && p(xs[r.value])
    ensures r.Some? ==> forall j :: 0 <= j < r.value ==> !p(xs[j])
    ensures r.None? <==> forall j :: 0 <= j < |xs| ==> !p(xs[j])
  {
    if |xs| == 0 then None
    else if p(xs[0]) then Some(0)
    else match FirstIndex(xs[1..], p)
      case None => None
      case Some(i) => Some(i + 1)
  }

  /** The search sees elements only through `p`: two sequences whose elements
      agree pointwise on the predicate have the same first match. */
  lemma {:induction false} FirstIndexAgrees<T, U>(xs: seq<T>, p: T -> bool, ys: seq<U>, q: U -> bool)
    requires |xs| == |ys|
    requires forall k :: 0 <= k < |xs| ==> p(xs[k]) == q(ys[k])
    ensures FirstIndex(xs, p) == FirstIndex(ys, q)
  {
    if |xs| > 0 && !p(xs[0]) {
      FirstIndexAgrees(xs[1..], p, ys[1..], q);
    }
  }
}

=== FILE: dialog.dfy ===
/** The dialog box: a list of messages shown one at a time, each typed out a
    character per timer tick, with a "next" button that first finishes the
    typing, then advances, and after the last message closes the dialog. */
module Dialog {
  import opened Common

  /** The running typing timer: the message it captured when it started and
      how many characters it has shown. */
  datatype Timer = Timer(message: string, charIndex: nat)

  /** Message index, typing flag, the text on screen, and the typing timer
      if one is running. */
  datatype DialogState = DialogState(index: nat, typing: bool, displayed: string, timer: Option<Timer>)

  /** What pressing "next" produced: the new state and whether the dialog
      reported completion to its owner. */
  datatype Outcome = Outcome(state: DialogState, completed: bool)

  const InitialDialog: DialogState := DialogState(0, false, "", None)

  /** The message at the current index; past the end the component reads
      `undefined`, which renders as no text. */
  function CurrentMessage(d: DialogState, msgs: seq<string>): (m: string)
    ensures d.index < |msgs| ==> m == msgs[d.index]
  {
    if d.index < |msgs| then msgs[d.index] else ""
  }

  /** The index points at a message whenever there is one. */
  predicate ValidIndex(d: DialogState, msgs: seq<string>)
  {
    |msgs| == 0 || d.index < |msgs|
  }

  /** The typing invariant: a timer runs exactly while the typing flag is
      set, and the text on screen is the part of the captured message the
      timer has shown so far. */
  predicate TypingInv(d: DialogState)
  {
    (d.typing <==> d.timer.Some?)
    && (d.timer.Some? ==>
          d.timer.value.charIndex <= |d.timer.value.message|
          && d.displayed == d.timer.value.message[..d.timer.value.charIndex])
  }

  /** The typing effect, run whenever the index, the messages or the
      visibility change: the previous timer is stopped, and for a visible
      dialog with messages the text is cleared and a new timer starts on the
      current message. */
  function Restart(d: DialogState, visible: bool, msgs: seq<string>): (r: DialogState)
    requires ValidIndex(d, msgs)
    ensures r.index == d.index && r.timer.Some? == (visible && |msgs| > 0)
    ensures !visible || |msgs| == 0 ==> r == d.(timer := None)
    ensures visible && |msgs| > 0 ==> r.typing && r.displayed == "" && r.timer == Some(Timer(msgs[d.index], 0))
    ensures visible && |msgs| > 0 ==> TypingInv(r)
  {
    if !visible || |msgs| == 0 then d.(timer := None)
    else d.(typing := true, displayed := "", timer := Some(Timer(msgs[d.index], 0)))
  }

  /** One timer tick: show one more character, or, once the whole message
      is shown, clear the typing flag and stop. */
  function Tick(d: DialogState): (r: DialogState)
    ensures r.index == d.index
    ensures d.timer.None? ==> r == d
    ensures d.timer.Some? && d.timer.value.charIndex < |d.timer.value.message| ==>
              r.timer == Some(d.timer.value.(charIndex := d.timer.value.charIndex + 1))
              && r.displayed == d.timer.value.message[..d.timer.value.charIndex + 1]
              && r.typing == d.typing
    ensures d.timer.Some? && d.timer.value.charIndex >= |d.timer.value.message| ==>
              r == d.(typing := false, timer := None)
    ensures TypingInv(d) ==> TypingInv(r)
  {
    match d.timer
    case None => d
    case Some(t) =>
      if t.charIndex < |t.message|
      then d.(displayed := t.message[..t.charIndex + 1], timer := Some(t.(charIndex := t.charIndex + 1)))
      else d.(typing := false, timer := None)
  }

  function Ticks(d: DialogState, k: nat): (r: DialogState)
  {
    if k == 0 then d else Tick(Ticks(d, k - 1))
  }

  /** After `k` ticks, with `k` at most the message length, exactly the
      first `k` characters are on screen and typing goes on. */
  lemma {:induction false} TypewriterShowsPrefix(d: DialogState, msgs: seq<string>, k: nat)
    requires d.index < |msgs| && k <= |msgs[d.index]|
    ensures Ticks(Restart(d, true, msgs), k).displayed == msgs[d.index][..k]
    ensures Ticks(Restart(d, true, msgs), k).typing
    ensures Ticks(Restart(d, true, msgs), k).timer == Some(Timer(msgs[d.index], k))
    ensures Ticks(Restart(d, true, msgs), k).index == d.index
  {
    if k > 0 {
      TypewriterShowsPrefix(d, msgs, k - 1);
    }
  }

  /** The tick after the last character ends typing with the whole message
      on screen, and further ticks change nothing. */
  lemma {:induction false} TypewriterFinishes(d: DialogState, msgs: seq<string>, extra: nat)
    requires d.index < |msgs|
    ensures Ticks(Restart(d, true, msgs), |msgs[d.index]| + 1 + extra)
            == Restart(d, true, msgs).(typing := false, displayed := msgs[d.index], timer := None)
  {
    var m := msgs[d.index];
    if extra == 0 {
      TypewriterShowsPrefix(d, msgs, |m|);
      assert m[..|m|] == m;
      assert Ticks(Restart(d, true, msgs), |m| + 1) == Tick(Ticks(Restart(d, true, msgs), |m|));
    } else {
      TypewriterFinishes(d, msgs, extra - 1);
    }
  }

  /** "Next" as the component writes it: while typing, show the whole
      message and clear the flag; otherwise advance, or at the last message
      report completion and go back to the first. The typing timer is left
      running in the first case. */
  function NextAsWritten(d: DialogState, msgs: seq<string>): (r: Outcome)
    ensures d.typing ==> !r.completed && r.state.index == d.index && !r.state.typing
                         && r.state.displayed == CurrentMessage(d, msgs) && r.state.timer == d.timer
  {
    if d.typing then Outcome(d.(displayed := CurrentMessage(d, msgs), typing := false), false)
    else if d.index < |msgs| - 1 then Outcome(d.(index := d.index + 1), false)
    else Outcome(d.(index := 0), true)
  }

  /** With the timer left running, the next tick takes back the text that
      "next" revealed: a three-letter message skipped after one character
      shows two characters again. */
  lemma SkipIsUndoneAsWritten()
    ensures var d := DialogState(0, true, "a", Some(Timer("abc", 1)));
            TypingInv(d)
            && NextAsWritten(d, ["abc"]).state.displayed == "abc"
            && Tick(NextAsWritten(d, ["abc"]).state).displayed == "ab"
  {
    var d := DialogState(0, true, "a", Some(Timer("abc", 1)));
    assert "abc"[..1] == "a";
    assert "abc"[..2] == "ab";
  }

  /** "Next" with the typing timer stopped when it finishes the message,
      which is what the skip is meant to do. */
  function Next(d: DialogState, msgs: seq<string>): (r: Outcome)
    // while typing: the whole message appears, the index stays
    ensures d.typing ==> !r.completed && r.state.index == d.index && !r.state.typing
                         && r.state.displayed == CurrentMessage(d, msgs) && r.state.timer.None?
    // otherwise: advance by exactly one while a later message exists
    ensures !d.typing && d.index + 1 < |msgs| ==> !r.completed && r.state == d.(index := d.index + 1)
    // otherwise: report completion and rewind
    ensures !d.typing && d.index + 1 >= |msgs| ==> r.completed && r.state == d.(index := 0)
    ensures ValidIndex(d, msgs) ==> ValidIndex(r.state, msgs)
    ensures TypingInv(d) ==> TypingInv(r.state)
  {
    if d.typing then Outcome(d.(displayed := CurrentMessage(d, msgs), typing := false, timer := None), false)
    else if d.index < |msgs| - 1 then Outcome(d.(index := d.index + 1), false)
    else Outcome(d.(index := 0), true)
  }

  /** Once "next" finishes the typing, no number of ticks changes the text. */
  lemma {:induction false} SkipSticks(d: DialogState, msgs: seq<string>, k: nat)
    requires d.typing
    ensures Tick(Next(d, msgs).state) == Next(d, msgs).state
    ensures Ticks(Next(d, msgs).state, k) == Next(d, msgs).state
    ensures Ticks(Next(d, msgs).state, k).displayed == CurrentMessage(d, msgs)
  {
    if k > 0 {
      SkipSticks(d, msgs, k - 1);
    }
  }

  /** The fixed "next" differs from the written one only in the timer. */
  lemma NextDiffersOnlyInTimer(d: DialogState, msgs: seq<string>)
    ensures Next(d, msgs).completed == NextAsWritten(d, msgs).completed
    ensures Next(d, msgs).state.(timer := d.timer) == NextAsWritten(d, msgs).state.(timer := d.timer)
    ensures !d.typing ==> Next(d, msgs) == NextAsWritten(d, msgs)
  {
  }

  /** A press of "next" as the component behaves: the written transition,
      then the typing effect when the index moved or the dialog is hidden
      afterwards (`visible` is the visibility after the press; the owner
      hides the dialog on completion, and the effect's cleanup then stops
      the timer). A press while typing on a dialog that stays visible
      leaves the typing timer running. */
  function PressAsWritten(d: DialogState, visible: bool, msgs: seq<string>): (r: Outcome)
    requires ValidIndex(d, msgs)
    ensures ValidIndex(r.state, msgs)
    ensures d.typing ==> !r.completed && r.state.index == d.index && !r.state.typing
                         && r.state.displayed == CurrentMessage(d, msgs)
                         && r.state.timer == (if visible then d.timer else None)
    ensures !visible ==> r.state.timer.None?
    ensures !d.typing && TypingInv(d) && visible ==> TypingInv(r.state)
    ensures !d.typing && d.index + 1 < |msgs| && visible ==>
              !r.completed && r.state.index == d.index + 1 && r.state.typing && r.state.displayed == ""
              && r.state.timer == Some(Timer(msgs[d.index + 1], 0))
    ensures !d.typing && d.index + 1 < |msgs| && !visible ==>
              !r.completed && r.state == d.(index := d.index + 1, timer := None)
    // completion: rewind to the first message, and restart typing on it if
    // the index moved and the dialog is still shown
    ensures !d.typing && d.index + 1 >= |msgs| ==> r.completed && r.state.index == 0
    ensures !d.typing && d.index + 1 >= |msgs| && !visible ==> r.state == d.(index := 0, timer := None)
    ensures !d.typing && d.index + 1 >= |msgs| && visible && d.index == 0 ==> r.state == d
    ensures !d.typing && d.index + 1 >= |msgs| && visible && d.index != 0 && |msgs| > 0 ==>
              r.state.typing && r.state.displayed == "" && r.state.timer == Some(Timer(msgs[0], 0))
    ensures !d.typing && d.index + 1 >= |msgs| && visible && d.index != 0 && |msgs| == 0 ==>
              r.state == d.(index := 0, timer := None)
  {
    var o := NextAsWritten(d, msgs);
    if o.state.index != d.index || !visible then Outcome(Restart(o.state, visible, msgs), o.completed) else o
  }

  /** The corrected press: the same composition over `Next`, which stops the
      typing timer when it finishes the message. */
  function Press(d: DialogState, visible: bool, msgs: seq<string>): (r: Outcome)
    requires ValidIndex(d, msgs)
    ensures ValidIndex(r.state, msgs)
    ensures d.typing ==> !r.completed && r.state.index == d.index && !r.state.typing
                         && r.state.displayed == CurrentMessage(d, msgs) && r.state.timer.None?
    ensures !visible ==> r.state.timer.None?
    ensures TypingInv(d) && visible ==> TypingInv(r.state)
    ensures !d.typing && d.index + 1 < |msgs| && visible ==>
              !r.completed && r.state.index == d.index + 1 && r.state.typing && r.state.displayed == ""
              && r.state.timer == Some(Timer(msgs[d.index + 1], 0))
    ensures !d.typing && d.index + 1 < |msgs| && !visible ==>
              !r.completed && r.state == d.(index := d.index + 1, timer := None)
    // completion: rewind to the first message, and restart typing on it if
    // the index moved and the dialog is still shown
    ensures !d.typing && d.index + 1 >= |msgs| ==> r.completed && r.state.index == 0
    ensures !d.typing && d.index + 1 >= |msgs| && !visible ==> r.state == d.(index := 0, timer := None)
    ensures !d.typing && d.index + 1 >= |msgs| && visible && d.index == 0 ==> r.state == d
    ensures !d.typing && d.index + 1 >= |msgs| && visible && d.index != 0 && |msgs| > 0 ==>
              r.state.typing && r.state.displayed == "" && r.state.timer == Some(Timer(msgs[0], 0))
    ensures !d.typing && d.index + 1 >= |msgs| && visible && d.index != 0 && |msgs| == 0 ==>
              r.state == d.(index := 0, timer := None)
  {
    var o := Next(d, msgs);
    if o.state.index != d.index || !visible then Outcome(Restart(o.state, visible, msgs), o.completed) else o
  }

  /** The two presses agree except for the timer a press while typing
      leaves behind. */
  lemma PressDiffersOnlyInTimer(d: DialogState, visible: bool, msgs: seq<string>)
    requires ValidIndex(d, msgs)
    ensures !d.typing ==> Press(d, visible, msgs) == PressAsWritten(d, visible, msgs)
    ensures d.typing ==> Press(d, visible, msgs).state == PressAsWritten(d, visible, msgs).state.(timer := None)
  {
    NextDiffersOnlyInTimer(d, msgs);
  }

  /** The button shows "▼" while a later message exists and "✓" at the last. */
  function Indicator(d: DialogState, msgs: seq<string>): (c: char)
  {
    if d.index < |msgs| - 1 then '▼' else '✓'
  }

  /** The check mark announces exactly the press that closes the dialog. */
  lemma IndicatorAnnouncesCompletion(d: DialogState, msgs: seq<string>)
    ensures Indicator(d, msgs) == '✓' || Indicator(d, msgs) == '▼'
    ensures !d.typing ==> (Indicator(d, msgs) == '✓' <==> Next(d, msgs).completed)
    ensures d.typing ==> !Next(d, msgs).completed
  {
  }

  function Presses(d: DialogState, msgs: seq<string>, k: nat): (r: Outcome)
  {
    if k == 0 then Outcome(d, false) else Next(Presses(d, msgs, k - 1).state, msgs)
  }

  /** The advance branch iterated on its own, with no typing effect between
      steps (as if the typing of each message had finished before the next
      press): from message `i` the steps walk through every later message
      without completing, and one more step completes and rewinds to the
      first message. */
  lemma {:induction false} PressesWalkToEnd(d: DialogState, msgs: seq<string>, k: nat)
    requires !d.typing && d.index < |msgs| && d.index + k < |msgs|
    ensures Presses(d, msgs, k).state == d.(index := d.index + k)
    ensures k > 0 ==> !Presses(d, msgs, k).completed
  {
    if k > 0 {
      PressesWalkToEnd(d, msgs, k - 1);
    }
  }

  lemma PressesCloseAfterLast(d: DialogState, msgs: seq<string>)
    requires !d.typing && d.index < |msgs|
    ensures Presses(d, msgs, |msgs| - d.index).completed
    ensures Presses(d, msgs, |msgs| - d.index).state == d.(index := 0)
  {
    PressesWalkToEnd(d, msgs, |msgs| - d.index - 1);
  }
}

=== FILE: game.dfy ===
/** The game's state record, its entities and the constants of the world:
    the walkable box, the walking speed and the door band between rooms. */
module Game {
  import opened Common

  datatype Scene = Menu | Intro | Ruins | Battle | Dialogue

  datatype Direction = Up | Down | Left | Right

  /** One snapshot of the game: scene, player position, facing and sprite
      frame, the current room and the progress flags. Coordinates are whole
      pixels. */
  datatype GameState = GameState(
    scene: Scene,
    playerX: int,
    playerY: int,
    playerDirection: Direction,
    currentDialogue: Option<string>,
    battleActive: bool,
    currentRoom: int,
    puzzleSolved: seq<bool>,
    npcMet: seq<bool>,
    playerSprite: int)

  datatype Npc = Npc(
    x: int,
    y: int,
    width: int,
    height: int,
    name: string,
    dialogue: seq<string>,
    sprite: string,
    room: int)

  datatype PuzzleKind = Switch | Rock | Door

  datatype PuzzleElement = PuzzleElement(
    x: int,
    y: int,
    kind: PuzzleKind,
    active: bool,
    room: int,
    id: int)

  const Speed: int := 3
  const MinX: int := 64
  const MaxX: int := 560
  const MinY: int := 64
  const MaxY: int := 400

  /** A door is passable while the player's x lies strictly inside this band. */
  const DoorLeft: int := 304
  const DoorRight: int := 336

  /** Where the player lands after walking through the top door of room 1
      into room 0, and through the bottom door of room 0 into room 1. */
  const LandingInRoom0: int := 380
  const LandingInRoom1: int := 80

  /** The sprite counter runs modulo this many frames. */
  const SpriteFrames: int := 60

  const NpcRadius: nat := 40
  const PuzzleRadius: nat := 30

  const InitialState: GameState := GameState(
    Menu, 160, 180, Down, None, false, 0,
    [false, false, false], [false, false], 0)

  const InitialPuzzles: seq<PuzzleElement> := [
    PuzzleElement(80, 120, Switch, false, 1, 0),
    PuzzleElement(200, 100, Rock, false, 1, 1),
    PuzzleElement(160, 40, Door, false, 1, 2)
  ]

  /** The player stands inside the walkable box. */
  predicate InBounds(s: GameState)
  {
    MinX <= s.playerX <= MaxX && MinY <= s.playerY <= MaxY
  }

  /** What every reachable snapshot satisfies: the player is inside the box
      and the sprite counter is a valid frame. */
  predicate Reachable(s: GameState)
  {
    InBounds(s) && 0 <= s.playerSprite < SpriteFrames
  }

  /** No two puzzle elements share an id. */
  predicate UniqueIds(ps: seq<PuzzleElement>)
  {
    forall i, j :: 0 <= i < |ps| && 0 <= j < |ps| && ps[i].id == ps[j].id ==> i == j
  }
}

=== FILE: interaction.dfy ===
/** Everything the game engine keeps besides the game snapshot (the held
    keys, the dialog flag, the selected NPC and the puzzle elements) and the
    handlers that change it: the interaction key, key release, dialog
    completion and the loop tick. */
module Interaction {
  import opened Common
  import opened Game
  import Movement

  datatype Session = Session(
    game: GameState,
    keys: set<string>,
    dialogVisible: bool,
    currentNpc: Option<Npc>,
    puzzles: seq<PuzzleElement>)

  const InitialSession: Session := Session(InitialState, {}, false, None, InitialPuzzles)

  /** An NPC the player can talk to: in the current room and closer than
      40 px. */
  predicate NpcInReach(s: GameState, n: Npc)
  {
    n.room == s.currentRoom && Near(s.playerX, s.playerY, n.x, n.y, NpcRadius)
  }

  /** A puzzle element the player can flip: a switch in the current room,
      closer than 30 px. Rocks and doors in reach are passed over. */
  predicate SwitchInReach(s: GameState, e: PuzzleElement)
  {
    e.room == s.currentRoom && Near(s.playerX, s.playerY, e.x, e.y, PuzzleRadius) && e.kind == Switch
  }

  /** Talking: the first NPC in reach, in list order, becomes the current
      NPC and the dialog opens; with none in reach nothing happens. */
  function CheckNpcInteraction(u: Session, npcs: seq<Npc>): (r: Session)
    ensures r.(dialogVisible := u.dialogVisible, currentNpc := u.currentNpc) == u
    ensures (forall i :: 0 <= i < |npcs| ==> !NpcInReach(u.game, npcs[i])) ==> r == u
    ensures (exists i :: 0 <= i < |npcs| && NpcInReach(u.game, npcs[i])) ==>
              r.dialogVisible
              && exists i :: 0 <= i < |npcs| && NpcInReach(u.game, npcs[i]) && r.currentNpc == Some(npcs[i])
                             && forall j :: 0 <= j < i ==> !NpcInReach(u.game, npcs[j])
  {
    match FirstIndex(npcs, n => NpcInReach(u.game, n))
    case None => u
    case Some(i) => u.(dialogVisible := true, currentNpc := Some(npcs[i]))
  }

  /** Flips `active` on every element carrying the given id. */
  function ToggleId(ps: seq<PuzzleElement>, id: int): (r: seq<PuzzleElement>)
    ensures |r| == |ps|
    ensures forall k :: 0 <= k < |ps| && ps[k].id == id ==> r[k].active == !ps[k].active
    ensures forall k :: 0 <= k < |ps| ==> r[k].(active := ps[k].active) == ps[k]
    ensures forall k :: 0 <= k < |ps| && ps[k].id != id ==> r[k] == ps[k]
  {
    seq(|ps|, k requires 0 <= k < |ps| =>
      if ps[k].id == id then ps[k].(active := !ps[k].active) else ps[k])
  }

  /** Flipping a switch: the first switch in reach, in list order, is
      toggled through its id; with none in reach the list is unchanged. */
  function CheckPuzzleInteraction(ps: seq<PuzzleElement>, s: GameState): (r: seq<PuzzleElement>)
    ensures |r| == |ps|
    // only `active` flags change
    ensures forall k :: 0 <= k < |ps| ==> r[k].(active := ps[k].active) == ps[k]
    ensures (forall k :: 0 <= k < |ps| ==> !SwitchInReach(s, ps[k])) ==> r == ps
    // the first switch in reach is flipped through its id
    ensures (exists k :: 0 <= k < |ps| && SwitchInReach(s, ps[k])) ==>
              exists i :: 0 <= i < |ps| && SwitchInReach(s, ps[i])
                          && (forall j :: 0 <= j < i ==> !SwitchInReach(s, ps[j]))
                          && forall k :: 0 <= k < |ps| ==>
                               r[k].active == (if ps[k].id == ps[i].id then !ps[k].active else ps[k].active)
    // with distinct ids exactly the first switch in reach flips
    ensures UniqueIds(ps) && (exists k :: 0 <= k < |ps| && SwitchInReach(s, ps[k])) ==>
              exists i :: 0 <= i < |ps| && SwitchInReach(s, ps[i])
                          && (forall j :: 0 <= j < i ==> !SwitchInReach(s, ps[j]))
                          && r == ps[i := ps[i].(active := !ps[i].active)]
    ensures UniqueIds(ps) ==> forall k :: 0 <= k < |ps| && ps[k].kind != Switch ==> r[k] == ps[k]
  {
    match FirstIndex(ps, e => SwitchInReach(s, e))
    case None => ps
    case Some(i) =>
      var r := ToggleId(ps, ps[i].id);
      assert UniqueIds(ps) ==> r == ps[i := ps[i].(active := !ps[i].active)];
      r
  }

  /** The initial puzzle list has distinct ids. */
  lemma InitialPuzzlesUnique()
    ensures UniqueIds(InitialPuzzles)
  {
  }

  /** No handler changes an id, so distinct ids stay distinct. */
  lemma HandlersKeepIdsUnique(u: Session, key: string, npcs: seq<Npc>)
    requires UniqueIds(u.puzzles)
    ensures UniqueIds(KeyDown(u, key, npcs).puzzles)
    ensures UniqueIds(KeyUp(u, key).puzzles)
    ensures UniqueIds(Tick(u).puzzles)
    ensures UniqueIds(DialogComplete(u).puzzles)
  {
    var ps := KeyDown(u, key, npcs).puzzles;
    assert |ps| == |u.puzzles|;
    forall k | 0 <= k < |ps|
      ensures ps[k].id == u.puzzles[k].id
    {
      if IsInteractKey(key) {
        assert ps[k].(active := u.puzzles[k].active) == u.puzzles[k];
      }
    }
  }

  /** Pressing the interaction key twice without moving restores every
      puzzle element. */
  lemma ToggleTwiceRestores(ps: seq<PuzzleElement>, s: GameState)
    ensures CheckPuzzleInteraction(CheckPuzzleInteraction(ps, s), s) == ps
  {
    var once := CheckPuzzleInteraction(ps, s);
    forall k | 0 <= k < |ps|
      ensures SwitchInReach(s, ps[k]) == SwitchInReach(s, once[k])
    {
      assert once[k].(active := ps[k].active) == ps[k];
    }
    FirstIndexAgrees(ps, e => SwitchInReach(s, e), once, e => SwitchInReach(s, e));
    var twice := CheckPuzzleInteraction(once, s);
    assert |twice| == |ps|;
    forall k | 0 <= k < |ps|
      ensures twice[k] == ps[k]
    {
    }
  }

  /** Closing the dialog clears the flag and the selected NPC. */
  function DialogComplete(u: Session): (r: Session)
    ensures !r.dialogVisible && r.currentNpc == None
    ensures r.(dialogVisible := u.dialogVisible, currentNpc := u.currentNpc) == u
  {
    u.(dialogVisible := false, currentNpc := None)
  }

  predicate IsInteractKey(key: string)
  {
    key == "z" || key == "Z"
  }

  /** A key goes down: it joins the held set, and the interaction key also
      runs the NPC check and then the switch check, both against the same
      snapshot. */
  function KeyDown(u: Session, key: string, npcs: seq<Npc>): (r: Session)
    ensures r.keys == u.keys + {key} && key in r.keys
    ensures r.game == u.game
    ensures !IsInteractKey(key) ==> r == u.(keys := u.keys + {key})
    ensures IsInteractKey(key) ==>
              r.puzzles == CheckPuzzleInteraction(u.puzzles, u.game)
              && (r.dialogVisible, r.currentNpc) == (CheckNpcInteraction(u, npcs).dialogVisible, CheckNpcInteraction(u, npcs).currentNpc)
  {
    var held := u.(keys := u.keys + {key});
    if IsInteractKey(key) then
      var talked := CheckNpcInteraction(held, npcs);
      talked.(puzzles := CheckPuzzleInteraction(u.puzzles, u.game))
    else held
  }

  /** A key comes up: it leaves the held set and nothing else changes. */
  function KeyUp(u: Session, key: string): (r: Session)
    ensures r.keys == u.keys - {key} && key !in r.keys
    ensures r.(keys := u.keys) == u
  {
    u.(keys := u.keys - {key})
  }

  /** Tapping a key that was not held, other than the interaction key,
      leaves the session as it was. */
  lemma KeyTapRestores(u: Session, key: string, npcs: seq<Npc>)
    requires key !in u.keys && !IsInteractKey(key)
    ensures KeyUp(KeyDown(u, key, npcs), key) == u
  {
    assert u.keys + {key} - {key} == u.keys;
  }

  /** One tick of the loop on the session. */
  function Tick(u: Session): (r: Session)
    ensures r.(game := u.game) == u
    ensures Reachable(u.game) ==> Reachable(r.game)
  {
    u.(game := Movement.Step(u.game, u.keys))
  }

  /** Holding the interaction key does not move the player. */
  lemma InteractKeyDoesNotMove(u: Session, key: string, npcs: seq<Npc>)
    requires IsInteractKey(key)
    ensures Tick(KeyDown(u, key, npcs)).game == Tick(u).game
  {
    forall d
      ensures Movement.Held(u.keys + {key}, d) == Movement.Held(u.keys, d)
    {
    }
    Movement.StepDependsOnGroupsOnly(u.game, u.keys + {key}, u.keys);
  }

  /** In the initial world, standing on the room-1 switch and pressing the
      interaction key turns that switch on and leaves the rock and the door. */
  lemma InitialSwitchFlips(s: GameState)
    requires s.currentRoom == 1 && s.playerX == 80 && s.playerY == 120
    ensures CheckPuzzleInteraction(InitialPuzzles, s) == InitialPuzzles[0 := InitialPuzzles[0].(active := true)]
  {
    assert SwitchInReach(s, InitialPuzzles[0]);
  }

  /** What can happen to a session: a key going down or up, a loop tick, or
      the dialog being closed. */
  datatype Event = KeyPressed(key: string) | KeyReleased(key: string) | LoopTick | DialogClosed

  function Apply(u: Session, e: Event, npcs: seq<Npc>): (r: Session)
  {
    match e
    case KeyPressed(k) => KeyDown(u, k, npcs)
    case KeyReleased(k) => KeyUp(u, k)
    case LoopTick => Tick(u)
    case DialogClosed => DialogComplete(u)
  }

  function Replay(u: Session, events: seq<Event>, npcs: seq<Npc>): (r: Session)
    decreases |events|
  {
    if |events| == 0 then u else Replay(Apply(u, events[0], npcs), events[1..], npcs)
  }

  /** Every session reached from the initial one has distinct puzzle ids, so
      the interaction key there flips exactly the first switch in reach and
      never a rock or a door. */
  lemma {:induction false} ReplayKeepsIdsUnique(u: Session, events: seq<Event>, npcs: seq<Npc>)
    requires UniqueIds(u.puzzles)
    ensures UniqueIds(Replay(u, events, npcs).puzzles)
    decreases |events|
  {
    if |events| > 0 {
      var e := events[0];
      HandlersKeepIdsUnique(u, if e.KeyPressed? || e.KeyReleased? then e.key else "", npcs);
      ReplayKeepsIdsUnique(Apply(u, e, npcs), events[1..], npcs);
    }
  }

  lemma ReachableSessionsHaveUniqueIds(events: seq<Event>, npcs: seq<Npc>)
    ensures UniqueIds(Replay(InitialSession, events, npcs).puzzles)
  {
    InitialPuzzlesUnique();
    ReplayKeepsIdsUnique(InitialSession, events, npcs);
  }
}

=== FILE: movement.dfy ===
/** The per-tick player update of the game loop: walk 3 px per held key
    group, clamp to the walkable box, pass through the door between rooms 0
    and 1, turn to face the last group handled, and advance the walk frame. */
module Movement {
  import opened Common
  import opened Game

  /** The arrow key of a direction. */
  function ArrowKey(d: Direction): (key: string)
  {
    match d
    case Up => "ArrowUp"
    case Down => "ArrowDown"
    case Left => "ArrowLeft"
    case Right => "ArrowRight"
  }

  /** The lower-case WASD letter of a direction. */
  function LetterKey(d: Direction): (key: string)
  {
    match d
    case Up => "w"
    case Down => "s"
    case Left => "a"
    case Right => "d"
  }

  /** A direction's key group is held when its arrow or its letter is. */
  predicate Held(keys: set<string>, d: Direction)
  {
    ArrowKey(d) in keys || LetterKey(d) in keys
  }

  predicate AnyHeld(keys: set<string>)
  {
    Held(keys, Up) || Held(keys, Down) || Held(keys, Left) || Held(keys, Right)
  }

  predicate InDoorBand(x: int)
  {
    DoorLeft < x < DoorRight
  }

  /** The loop's working variables while it handles the key groups in turn. */
  datatype Motion = Motion(x: int, y: int, dir: Direction, room: int, moved: bool)

  /** The up group: step up, and from room 1 step through the top door. The
      door test reads the room of the snapshot, not the working room. */
  function WalkUp(m: Motion, snapshotRoom: int): (r: Motion)
  {
    var y := Max(MinY, m.y - Speed);
    if y <= MinY && InDoorBand(m.x) && snapshotRoom == 1
    then Motion(m.x, LandingInRoom0, Up, 0, true)
    else Motion(m.x, y, Up, m.room, true)
  }

  /** The down group: step down, and from room 0 step through the bottom door. */
  function WalkDown(m: Motion, snapshotRoom: int): (r: Motion)
  {
    var y := Min(MaxY, m.y + Speed);
    if y >= MaxY && InDoorBand(m.x) && snapshotRoom == 0
    then Motion(m.x, LandingInRoom1, Down, 1, true)
    else Motion(m.x, y, Down, m.room, true)
  }

  function WalkLeft(m: Motion): (r: Motion)
  {
    m.(x := Max(MinX, m.x - Speed), dir := Left, moved := true)
  }

  function WalkRight(m: Motion): (r: Motion)
  {
    m.(x := Min(MaxX, m.x + Speed), dir := Right, moved := true)
  }

  /** The facing a step leaves: the group handled last wins, so right beats
      left beats down beats up, and with nothing held the facing is kept. */
  function Facing(keys: set<string>, previous: Direction): (d: Direction)
  {
    if Held(keys, Right) then Right
    else if Held(keys, Left) then Left
    else if Held(keys, Down) then Down
    else if Held(keys, Up) then Up
    else previous
  }

  /** The up-door rule fires: the player is in room 1, holds up, the clamped
      y reaches the top edge and x is inside the door band. */
  predicate UpWarp(s: GameState, keys: set<string>)
  {
    s.currentRoom == 1 && Held(keys, Up)
    && Max(MinY, s.playerY - Speed) <= MinY && InDoorBand(s.playerX)
  }

  /** The y the down group starts from: the up group has already moved it. */
  function YBeforeDown(s: GameState, keys: set<string>): (y: int)
  {
    if Held(keys, Up) then Max(MinY, s.playerY - Speed) else s.playerY
  }

  /** The down-door rule fires: the player is in room 0, holds down, the
      clamped y reaches the bottom edge and x is inside the door band. */
  predicate DownWarp(s: GameState, keys: set<string>)
  {
    s.currentRoom == 0 && Held(keys, Down)
    && Min(MaxY, YBeforeDown(s, keys) + Speed) >= MaxY && InDoorBand(s.playerX)
  }

  /** One tick of the game loop applied to a snapshot and the held keys. */
  function Step(s: GameState, keys: set<string>): (r: GameState)
    // only the five player fields are written
    ensures r.(playerX := s.playerX, playerY := s.playerY, playerDirection := s.playerDirection,
               currentRoom := s.currentRoom, playerSprite := s.playerSprite) == s
    // with no movement key held nothing changes at all
    ensures !AnyHeld(keys) ==> r == s
    // the box is kept, door landings included
    ensures InBounds(s) ==> InBounds(r)
    ensures r.playerDirection == Facing(keys, s.playerDirection)
    ensures AnyHeld(keys) && s.playerSprite >= 0 ==> r.playerSprite == (s.playerSprite + 1) % SpriteFrames
    ensures 0 <= s.playerSprite < SpriteFrames ==> 0 <= r.playerSprite < SpriteFrames
  {
    var m0 := Motion(s.playerX, s.playerY, s.playerDirection, s.currentRoom, false);
    var m1 := if Held(keys, Up) then WalkUp(m0, s.currentRoom) else m0;
    var m2 := if Held(keys, Down) then WalkDown(m1, s.currentRoom) else m1;
    var m3 := if Held(keys, Left) then WalkLeft(m2) else m2;
    var m4 := if Held(keys, Right) then WalkRight(m3) else m3;
    var frame := if m4.moved then JsRem(s.playerSprite + 1, SpriteFrames) else s.playerSprite;
    s.(playerX := m4.x, playerY := m4.y, playerDirection := m4.dir,
       currentRoom := m4.room, playerSprite := frame)
  }

  /** Where a step puts the player: 3 px per held group, clamped to the
      box, up before down and left before right; x moves only for the
      horizontal groups and y only for the vertical ones or a door. */
  lemma StepPosition(s: GameState, keys: set<string>)
    // x moves 3 px per horizontal group, clamped, left before right
    ensures !Held(keys, Left) && !Held(keys, Right) ==> Step(s, keys).playerX == s.playerX
    ensures Held(keys, Left) && !Held(keys, Right) ==> Step(s, keys).playerX == Max(MinX, s.playerX - Speed)
    ensures !Held(keys, Left) && Held(keys, Right) ==> Step(s, keys).playerX == Min(MaxX, s.playerX + Speed)
    ensures Held(keys, Left) && Held(keys, Right) ==> Step(s, keys).playerX == Min(MaxX, Max(MinX, s.playerX - Speed) + Speed)
    // y moves 3 px per vertical group, clamped, up before down, unless a door fires
    ensures !Held(keys, Up) && !Held(keys, Down) ==> Step(s, keys).playerY == s.playerY
    ensures !UpWarp(s, keys) && !DownWarp(s, keys) && !Held(keys, Down) ==> Step(s, keys).playerY == YBeforeDown(s, keys)
    ensures !UpWarp(s, keys) && !DownWarp(s, keys) && Held(keys, Down) ==>
              Step(s, keys).playerY == Min(MaxY, YBeforeDown(s, keys) + Speed)
  {
  }

  /** The room changes only through the two doors, and each door sets down
      the player at its landing row. */
  lemma RoomTransitions(s: GameState, keys: set<string>)
    ensures Step(s, keys).currentRoom != s.currentRoom <==> UpWarp(s, keys) || DownWarp(s, keys)
    ensures UpWarp(s, keys) ==> !DownWarp(s, keys)
    ensures UpWarp(s, keys) ==> Step(s, keys).currentRoom == 0
    ensures UpWarp(s, keys) ==>
              Step(s, keys).playerY == (if Held(keys, Down) then LandingInRoom0 + Speed else LandingInRoom0)
    ensures DownWarp(s, keys) ==> Step(s, keys).currentRoom == 1 && Step(s, keys).playerY == LandingInRoom1
    ensures s.currentRoom != 0 && s.currentRoom != 1 ==> Step(s, keys).currentRoom == s.currentRoom
  {
  }

  /** A step sees the held keys only through the four groups: extra keys
      such as the interaction key change nothing, and an arrow is
      interchangeable with its letter. */
  lemma StepDependsOnGroupsOnly(s: GameState, k1: set<string>, k2: set<string>)
    requires forall d :: Held(k1, d) == Held(k2, d)
    ensures Step(s, k1) == Step(s, k2)
  {
    assert Held(k1, Up) == Held(k2, Up);
    assert Held(k1, Down) == Held(k2, Down);
    assert Held(k1, Left) == Held(k2, Left);
    assert Held(k1, Right) == Held(k2, Right);
  }

  lemma ArrowAndLetterAlike(s: GameState, keys: set<string>, d: Direction)
    ensures Step(s, keys + {ArrowKey(d)}) == Step(s, keys + {LetterKey(d)})
  {
    forall e
      ensures Held(keys + {ArrowKey(d)}, e) == Held(keys + {LetterKey(d)}, e)
    {
    }
    StepDependsOnGroupsOnly(s, keys + {ArrowKey(d)}, keys + {LetterKey(d)});
  }

  /** The snapshots the loop visits for a sequence of held-key sets. */
  function Run(s: GameState, inputs: seq<set<string>>): (r: GameState)
    decreases |inputs|
  {
    if |inputs| == 0 then s else Run(Step(s, inputs[0]), inputs[1..])
  }

  /** From any reachable snapshot, any number of ticks keeps the player
      inside the box and the sprite counter inside its frame range. */
  lemma {:induction false} RunStaysReachable(s: GameState, inputs: seq<set<string>>)
    requires Reachable(s)
    ensures Reachable(Run(s, inputs))
    decreases |inputs|
  {
    if |inputs| > 0 {
      RunStaysReachable(Step(s, inputs[0]), inputs[1..]);
    }
  }

  lemma InitialRunsStayReachable(inputs: seq<set<string>>)
    ensures Reachable(Run(InitialState, inputs))
    ensures Run(InitialState, inputs).currentRoom in {0, 1}
  {
    RunStaysReachable(InitialState, inputs);
    RunKeepsRoomsZeroAndOne(InitialState, inputs);
  }

  /** Starting in room 0 or 1, the player never reaches any other room. */
  lemma {:induction false} RunKeepsRoomsZeroAndOne(s: GameState, inputs: seq<set<string>>)
    requires s.currentRoom in {0, 1}
    ensures Run(s, inputs).currentRoom in {0, 1}
    decreases |inputs|
  {
    if |inputs| > 0 {
      RunKeepsRoomsZeroAndOne(Step(s, inputs[0]), inputs[1..]);
    }
  }
}
